=== FILE: README.md ===
# hoyomap asset server: request router with path confinement

A Dafny model of the request router in `server.py`, the small HTTP server
that hands game assets to the map client. The server does four things:

- It serves six singleton files at fixed paths (`/manifest`, `/ocean.glb`, …).
- It lists asset directories as JSON at `/list_<name>`.
- It serves files from four asset directories at `/<name>/<file>`. The
  file name is attacker-controlled, so it is confined to the route's
  directory.
- It hands every other path to the library's static-file handler.

The model is written as pure functions:

- `Resolver.SafeResolve` is `safe_resolve`. Paths are segment lists
  (`Paths.Path`), and "lies under" is the segment-wise prefix `<=`.
  `Path.resolve()` is a parameter `canon`, an arbitrary canonicaliser.
  Symbolic links are included, and `None` stands for the `ValueError` or
  `OSError` it may raise and `safe_resolve` catches. Confinement is proved for every `canon`.
  `Paths.LexCanon` is a concrete lexical canonicaliser (`.`, `..`, empty
  segments; `..` at `/` stays at `/`). With it, the lemmas show which `..`
  candidates are refused.
- `Listing.ListFiles` is `list_files`. It does an insertion sort under
  Python's code-point string order (`Strings.LessEq`). That order is proved
  total, so the sorted listing is unique.
- `Routes` holds the two tables. `ASSET_ROUTES` is an ordered sequence
  because `do_GET` walks it in order. `base`, the directory that holds the
  script, is a parameter.
- `Dispatch.Classify` is the rule chain of `do_GET`: singleton, then
  listing, then asset prefix, then static fallback. Each rule is a separate
  `Match…` function, and `Classify` returns a `Route` value.
- `Emitter.Respond` and `Emitter.Handle` turn a `Route` into a `Reply`
  over a filesystem map: `_serve_json`, `_serve_file`, `end_headers` and
  `send_error(404)`. `Emitter.Logged` is the 404 filter of `log_message`.

Three behaviours of `server.py` are easy to miss:

- The static fallback rewrites only `/` to `/index.html`. Every other
  unmatched target goes to the library as received, with its query string
  still attached (`Dispatch.QueryIgnored`).
- A failure is not always a 404. `_serve_file` on a directory calls
  `read_bytes`, which raises. Listing a route whose directory path is a
  plain file makes `os.listdir` raise. An entry without read permission
  (`Emitter.Node.Unreadable`) makes `exists()`, `read_bytes()` or
  `os.listdir` raise too. All of these end the request with no reply
  (`Reply.Aborted`). One way to reach this is `/hlod/` with an empty file
  name: it resolves to the route directory itself.
- A listing keeps every entry whose name ends with the extension,
  sub-directories included. It does not check that an entry is a file.

## Model

| member | source | states |
|---|---|---|
| `Strings.BeforeQuery` | server.py:49 | the dispatch path is the longest prefix of the request target without `?`, and the next character, if any, is `?` |
| `Strings.BeforeQueryOfQuery` | server.py:49 | for a `?`-free path, anything after the first `?` is ignored |
| `Strings.LessEqTotal` | server.py:41 | any two names are comparable in the order `sorted` uses |
| `Strings.LessEqTransitive` | server.py:41 | the string order is transitive |
| `Strings.LessEqAntisymmetric` | server.py:41 | names that sort both ways are equal, so the order is a total order |
| `Strings.DecimalRoundTrip` | server.py:82 | the `str(len(body))` written to `Content-Length` reads back as the same number |
| `Strings.DecimalInjective` | server.py:92 | different lengths give different `Content-Length` values |
| `Paths.SplitRoundTrip` | server.py:30 | splitting a file name on `/` loses nothing: joining the pieces gives the name back |
| `Paths.NormalizeIdempotent` | server.py:30 | lexical resolution of an already resolved path changes nothing |
| `Paths.NormalizeFromAppend` | server.py:30 | resolving a path in two pieces equals resolving it at once |
| `Paths.NormalizeFromClean` | server.py:30 | without `..`, resolution only drops empty and `.` segments |
| `Paths.NormalizeFromClimb` | server.py:30 | `k` times `..` drops the last `k` segments and stops at `/` |
| `Resolver.SafeResolve` | server.py:28-35 | for every canonicaliser: a returned path lies under the canonical directory and is the canonical join; a canonical join under the directory is always returned; every error or escape gives `None` |
| `Resolver.CleanCandidateAccepted` | server.py:28-32 | a relative name without `..` is accepted as the directory plus the name's segments |
| `Resolver.ClimbingCandidate` | server.py:28-32 | a name that climbs `k` levels and then names `rest` is accepted exactly when the climb re-enters the directory, as the climbed-to directory plus `rest` |
| `Resolver.ClimbOutRejected` | server.py:28-32 | a name that climbs out and does not come back into the segment it left is refused |
| `Resolver.SiblingRejected` | server.py:31 | `/data/assets-evil/x` is refused for `/data/assets` although the strings share a prefix |
| `Listing.Matching` | server.py:41 | keeps exactly the entries that end with the extension |
| `Listing.Insert` | server.py:41 | inserting into an ascending list keeps it ascending and adds exactly that element |
| `Listing.Sort` | server.py:41 | `sorted` gives an ascending permutation of its input |
| `Listing.ListFiles` | server.py:38-41 | a missing directory lists `[]`; otherwise the result is ascending, every name in it is an entry ending with the extension, every such entry is in it, and the count of each name matches |
| `Listing.SortedUnique` | server.py:41 | two ascending lists with the same elements are equal, so the listing is determined by the directory's contents |
| `Listing.ListFilesOrderIndependent` | server.py:41 | the listing does not depend on the order `os.listdir` reports entries in |
| `Listing.ListingExample` | server.py:38-41 | `b.obj`, `a.obj`, `c.txt` filtered by `.obj` list as `a.obj`, `b.obj` |
| `Listing.ListingSeesNewFile` | server.py:38-41 | a matching file added between two requests appears in the second listing, so the two listings differ |
| `Routes.Find` | server.py:52 | a dictionary lookup: the entry found has the requested key, and nothing is found exactly when no entry has it |
| `Routes.FindAsset` | server.py:59-60 | route lookup by name returns a route with that name, or `None` exactly when no route has it |
| `Routes.FindAssetAt` | server.py:59-60 | with distinct names, lookup finds the route itself |
| `Routes.FindSingle` | server.py:52-53 | singleton lookup returns the route for exactly that path, or `None` exactly when no singleton has it |
| `Routes.AssetTableWellFormed` | server.py:11-16 | the four asset route names are distinct and contain no `/` |
| `Routes.SingletonUrlsFlat` | server.py:18-25 | no singleton path has a `/` after its leading one |
| `Routes.PrefixNamesEqual` | server.py:65-66 | two slash-free names whose prefixes both start a path are equal |
| `Routes.PrefixesExclusive` | server.py:12-15 | at most one asset prefix starts any path (`/hlod/` and `/hlod_all/` never both match) |
| `Dispatch.AssetOutcome` | server.py:67-71 | a matched route serves a file exactly when `safe_resolve` accepts the rest of the path; that file is the canonical join, lies under the canonical directory and has the route's content type; otherwise 404 |
| `Dispatch.MatchAsset` | server.py:64-71 | no result exactly when no prefix matches; otherwise the outcome of the first route, in table order, whose prefix matches |
| `Dispatch.SingletonPrecedence` | server.py:52-54 | a singleton path is served from its file with its content type, whatever later rule would also match |
| `Dispatch.ListingMatch` | server.py:57-61 | `/list_<name>` for a known route lists that route's directory and extension |
| `Dispatch.UnknownListingFallsThrough` | server.py:57-59 | an unknown `/list_` name is not a 404; the asset-prefix and static rules decide |
| `Dispatch.AssetPathIsNoListing` | server.py:57-66 | a path with an asset prefix is never a listing request |
| `Dispatch.AssetPathIsNoSingleton` | server.py:52-66 | if singleton paths hold no second `/`, a path with an asset prefix is never a singleton |
| `Dispatch.AssetPrefixTerminal` | server.py:63-71 | once a route's prefix matches, that route alone decides the outcome (its confined file or 404), and the static fallback is never reached |
| `Dispatch.FallbackRewrite` | server.py:73-76 | a path that matches no rule is handed on with `/` rewritten to `/index.html` and any other target unchanged |
| `Dispatch.NotFoundOnlyUnderAssetPrefix` | server.py:63-71 | classification gives 404 only for a path under some asset prefix |
| `Dispatch.QueryIgnored` | server.py:49 | the query string never changes which rule applies; only the static fallback still carries it |
| `Dispatch.ManifestIsSingleton` | server.py:19 | `/manifest?…` is served from `manifests/android_manifest.json` as `application/json` |
| `Dispatch.ListHlodIsListing` | server.py:12 | `/list_hlod` lists `game_data/hlod` filtered by `.obj` |
| `Dispatch.UnknownListingIsStatic` | server.py:56-76 | `/list_meshes` reaches the static handler unchanged |
| `Dispatch.AssetRequest` | server.py:63-71 | a target `/<name>/<filename>` without a query is answered 404 exactly when `safe_resolve` refuses `filename` for that route's directory |
| `Dispatch.ClimbOutIsNotFound` | server.py:63-71 | through an asset route, a `..` candidate that leaves the route directory and does not come back is answered 404 |
| `Dispatch.HlodClimbRejected` | server.py:63-71 | through `/hlod/`, a candidate that climbs two levels and does not come back into `game_data` is answered 404 |
| `Dispatch.SecretClimbRejected` | server.py:63-71 | `/hlod/../../secret.obj` is answered 404 |
| `Emitter.ServeJson` | server.py:78-84 | status 200, the encoded body, `application/json`, a `Content-Length` equal to the body's byte length, no cache header, and CORS |
| `Emitter.ServeFile` | server.py:86-95 | a missing path gives 404; a file gives 200 with its bytes, the declared type, a `Content-Length` equal to the byte count and `Cache-Control: public, max-age=3600`; a directory or an unreadable entry aborts; every reply carries CORS |
| `Emitter.Respond` | server.py:48-99 | every reply is 200, 404, handed to the static handler or aborted; every reply carries `Access-Control-Allow-Origin: *` last; every 200 reply has a `Content-Length` equal to its body length |
| `Dispatch.SingletonsAreNoListings` | server.py:18-25 | no singleton path starts with `/list_` |
| `Emitter.SingletonReply` | server.py:52-54 | a singleton path gets the reply `_serve_file` gives for the table file: 404 when nothing is there, 200 with its bytes, the table's content type, its length and the cache hint when it is a file, no reply when it is a directory or unreadable |
| `Emitter.AssetReplyConfined` | server.py:63-95 | a request under an asset prefix gets 404, no reply, or 200 with the bytes of a file under the route's canonical directory, typed as the route says |
| `Emitter.AssetReply` | server.py:63-95 | under an asset prefix: 404 when `safe_resolve` refuses the candidate or nothing exists at the resolved path, the `_serve_file` reply for the resolved path otherwise, which is 200 with the file's bytes, the route's type, its length and the cache hint when a file is there, and no reply when it is a directory or unreadable |
| `Emitter.AssetServed` | server.py:66-70 | a candidate that canonicalises under the route's directory and names a file is answered 200 with exactly that file's bytes |
| `Emitter.ListingReply` | server.py:56-84 | `/list_<name>` answers with the JSON of that route's listing, or `[]` when its directory is missing, and gives no reply when a plain file or an unreadable entry stands in its place |
| `Emitter.Logged` | server.py:101-104 | a log line is written exactly when no argument prints as `404` |
| `Emitter.RequestLogFilter` | server.py:101-104 | a request line is logged exactly when the status is not 404 |
| `Emitter.NotFoundErrorNotLogged` | server.py:101-104 | the error line `send_error(404)` logs is always dropped |

## Left out

- Windows path semantics are left out: `Paths` models POSIX `pathlib` (`/` is the only separator, no drive letters, case-sensitive `is_relative_to`). On Windows `\` also separates, so a name such as `..\..\secret.obj` climbs, while `Paths.Split` keeps it as one segment. `Resolver.CleanCandidateAccepted`, the `..` lemmas and the segment prefix `<=` standing for `is_relative_to` hold only for POSIX paths. The confinement contract of `Resolver.SafeResolve` holds for any canonicaliser.
- Static-file serving by `SimpleHTTPRequestHandler.do_GET` (server.py:76) is a library call. It is modelled only as the outcome `Reply.Delegated(path)`, and the confinement it does on its own is not modelled.
- `Path.resolve`, `exists`, `read_bytes` and `os.listdir` are not modelled. They become the parameter `canon` and the map `Emitter.FileSystem`. The model proves nothing about real symbolic-link resolution.
- `json.dumps(...).encode()` is the parameter `encode`. Only the relation between the body and `Content-Length` is stated.
- The headers and body that the library adds (`Server`, `Date`, and the HTML error page and its headers that `send_error` writes) are left out. A 404 is modelled as status 404 plus the CORS header, which `send_error` gets through the overridden `end_headers`.
- The text that `log_message` writes to stderr is left out. Only the decision whether to write it is modelled.
- The threaded TCP server, `serve_forever` and the start-up summary (server.py:107-117) are I/O and concurrency plumbing, and are left out.
- The static handler's own reply is not modelled. It also passes through the overridden `end_headers`, so it carries the CORS header too.
- Methods other than GET are handled entirely by the library and are left out.
- A filename with a leading `//`: `Paths.Join` (through `Paths.IsAbsolute` and `Paths.Parts`) makes any filename starting with `/` an absolute path from the root and drops the empty segments. pathlib keeps a leading `//` as a separate root, but `Path.resolve()` maps it to `/` again, so the canonical paths agree. The pathlib object before resolution is not modelled.
- `Resolver.SafeResolve`: the canonicaliser cannot raise an exception that `safe_resolve` does not catch. On Python 3.10 to 3.12, `Path.resolve()` raises `RuntimeError` on a symbolic-link loop. server.py:33 does not catch it, so such a request ends with no reply (`Reply.Aborted`). `canon: Path -> Option<Path>` has no way to say this.
- File names that are not valid in the filesystem encoding are left out. `os.listdir` (server.py:41) returns them with lone surrogate characters, and Dafny's `char` excludes surrogates.
- `Listing.ListFiles` takes the directory as the list `os.listdir` returns, not as a set. It is proved independent of that list's order.

=== FILE: dispatch.dfy ===
/**
 The request classifier of `Handler.do_GET`: the path before the first
 `?` is tried against four rules, first match wins:
   1. an exact singleton path;
   2. `/list_<name>` for a known asset route;
   3. the prefix `/<name>/` of an asset route, in table order;
   4. the static fallback, `/` rewritten to `/index.html`.
 Classification is independent of the file map `fs` (the filesystem
 reaches it only through the canonicaliser `canon`); `Emitter` turns the
 chosen `Route` into a reply.
 */
module Dispatch {
  import opened Wrappers
  import opened Strings
  import opened Paths
  import opened Resolver
  import opened Routes

  /** What a request is answered with. */
  datatype Route =
    | SingleFile(file: Path, ctype: string)   // `_serve_file` on a singleton
    | JsonListing(dir: Path, ext: string)     // `_serve_json(list_files(dir, ext))`
    | AssetFile(file: Path, ctype: string)    // `_serve_file` on a confined asset
    | NotFound                                // `send_error(404)`
    | Static(path: string)                    // handed to the library's static handler

  const ListPrefix: string := "/list_"

  /** Rule 1: the path is a singleton key. */
  function MatchSingle(singles: seq<FileRoute>, path: string): Option<Route> {
    match FindSingle(singles, path)
    case Some(route) => Some(SingleFile(route.file, route.ctype))
    case None => None
  }

  /** Rule 2: `/list_<name>` with `<name>` a known asset route. */
  function MatchListing(assets: seq<AssetRoute>, path: string): Option<Route> {
    if StartsWith(path, ListPrefix) then
      match FindAsset(assets, path[|ListPrefix|..])
      case Some(route) => Some(JsonListing(route.dir, route.ext))
      case None => None
    else None
  }

  /** Rule 3 for one route whose prefix matched: the confined file or 404.
      The rest of the path after the prefix is the candidate filename. */
  function AssetOutcome(canon: Path -> Option<Path>, route: AssetRoute, path: string): (r: Route)
    requires StartsWith(path, AssetPrefix(route.name))
    ensures r.NotFound? || r.AssetFile?
    ensures var f := path[|AssetPrefix(route.name)|..];
            r.AssetFile? <==> SafeResolve(canon, route.dir, f).Some?
    ensures var f := path[|AssetPrefix(route.name)|..];
            r.AssetFile? ==> canon(Join(route.dir, f)) == Some(r.file)
    ensures r.AssetFile? ==> r.ctype == route.ctype
    ensures r.AssetFile? ==> canon(route.dir).Some? && canon(route.dir).value <= r.file
  {
    match SafeResolve(canon, route.dir, path[|AssetPrefix(route.name)|..])
    case Some(resolved) => AssetFile(resolved, route.ctype)
    case None => NotFound
  }

  /** Rule 3: the first route, in table order, whose prefix starts the path. */
  function MatchAsset(canon: Path -> Option<Path>, assets: seq<AssetRoute>, path: string): (r: Option<Route>)
    ensures r.None? <==> forall i :: 0 <= i < |assets| ==> !StartsWith(path, AssetPrefix(assets[i].name))
    ensures r.Some? ==> exists i :: && 0 <= i < |assets| && StartsWith(path, AssetPrefix(assets[i].name))
                                    && (forall j :: 0 <= j < i ==> !StartsWith(path, AssetPrefix(assets[j].name)))
                                    && r.value == AssetOutcome(canon, assets[i], path)
  {
    if |assets| == 0 then None
    else if StartsWith(path, AssetPrefix(assets[0].name)) then Some(AssetOutcome(canon, assets[0], path))
    else
      var r := MatchAsset(canon, assets[1..], path);
      assert forall i :: 1 <= i < |assets| ==> assets[i] == assets[1..][i - 1];
      if r.Some? then
        var k :| && 0 <= k < |assets[1..]| && StartsWith(path, AssetPrefix(assets[1..][k].name))
                 && (forall j :: 0 <= j < k ==> !StartsWith(path, AssetPrefix(assets[1..][j].name)))
                 && r.value == AssetOutcome(canon, assets[1..][k], path);
        assert forall j :: 0 <= j < k + 1 ==> !StartsWith(path, AssetPrefix(assets[j].name));
        r
      else r
  }

  /** Rule 4: `/` becomes `/index.html`; anything else goes through as
      received, query string included, since only `/` rewrites `self.path`. */
  function Fallback(raw: string, path: string): Route {
    Static(if path == "/" then "/index.html" else raw)
  }

  /** Rules 3 and 4, which an unmatched `/list_` path also reaches. */
  function AssetOrStatic(canon: Path -> Option<Path>, assets: seq<AssetRoute>, raw: string, path: string): Route {
    match MatchAsset(canon, assets, path)
    case Some(r) => r
    case None => Fallback(raw, path)
  }

  /** `do_GET`'s choice for the request target `raw`. */
  function Classify(singles: seq<FileRoute>, assets: seq<AssetRoute>,
                    canon: Path -> Option<Path>, raw: string): Route
  {
    var path := BeforeQuery(raw);
    match MatchSingle(singles, path)
    case Some(r) => r
    case None =>
      match MatchListing(assets, path)
      case Some(r) => r
      case None => AssetOrStatic(canon, assets, raw, path)
  }

  /** The classifier of the running server, over its own route tables. */
  function HandlerClassify(base: Path, canon: Path -> Option<Path>, raw: string): Route {
    Classify(SingleFileRoutes(base), AssetRoutes(base), canon, raw)
  }

  // ---------------------------------------------------------------------
  // Precedence.

  /** A singleton path is served from its file, whatever later rule would
      also have matched. */
  lemma SingletonPrecedence(singles: seq<FileRoute>, assets: seq<AssetRoute>,
                            canon: Path -> Option<Path>, raw: string)
    requires FindSingle(singles, BeforeQuery(raw)).Some?
    ensures var route := FindSingle(singles, BeforeQuery(raw)).value;
            Classify(singles, assets, canon, raw) == SingleFile(route.file, route.ctype)
  {
  }

  /** `/list_<name>` for a known route lists that route's directory and extension. */
  lemma ListingMatch(singles: seq<FileRoute>, assets: seq<AssetRoute>,
                     canon: Path -> Option<Path>, raw: string, i: nat)
    requires WellFormed(assets) && i < |assets|
    requires BeforeQuery(raw) == ListPrefix + assets[i].name
    requires FindSingle(singles, BeforeQuery(raw)).None?
    ensures Classify(singles, assets, canon, raw) == JsonListing(assets[i].dir, assets[i].ext)
  {
    FindAssetAt(assets, i);
    assert BeforeQuery(raw)[|ListPrefix|..] == assets[i].name;
  }

  /** An unknown `/list_` name is no 404: the request moves on to the asset
      prefixes and the static fallback. */
  lemma UnknownListingFallsThrough(singles: seq<FileRoute>, assets: seq<AssetRoute>,
                                   canon: Path -> Option<Path>, raw: string)
    requires FindSingle(singles, BeforeQuery(raw)).None?
    requires StartsWith(BeforeQuery(raw), ListPrefix)
    requires forall i :: 0 <= i < |assets| ==> assets[i].name != BeforeQuery(raw)[|ListPrefix|..]
    ensures Classify(singles, assets, canon, raw) == AssetOrStatic(canon, assets, raw, BeforeQuery(raw))
  {
  }

  /** Under well-formed routes a path that starts with an asset prefix is
      never also a listing request: the `/` ending the prefix cannot be part
      of a route name, nor of `/list_`. */
  lemma AssetPathIsNoListing(assets: seq<AssetRoute>, path: string, i: nat)
    requires WellFormed(assets) && i < |assets|
    requires StartsWith(path, AssetPrefix(assets[i].name))
    ensures MatchListing(assets, path).None?
  {
    PrefixShape(assets[i].name, path);
    var n := |assets[i].name|;
    if StartsWith(path, ListPrefix) {
      var name := path[|ListPrefix|..];
      if n + 1 >= |ListPrefix| {
        assert name[n + 1 - |ListPrefix|] == '/';
        assert '/' in name;
      }
    }
  }

  /** Once a route's prefix matches, that route alone decides: its confined
      file or 404, never another route and never the static fallback. */
  lemma AssetPrefixTerminal(singles: seq<FileRoute>, assets: seq<AssetRoute>,
                            canon: Path -> Option<Path>, raw: string, i: nat)
    requires WellFormed(assets) && i < |assets|
    requires FindSingle(singles, BeforeQuery(raw)).None?
    requires StartsWith(BeforeQuery(raw), AssetPrefix(assets[i].name))
    ensures Classify(singles, assets, canon, raw) == AssetOutcome(canon, assets[i], BeforeQuery(raw))
    ensures !Classify(singles, assets, canon, raw).Static?
  {
    var path := BeforeQuery(raw);
    AssetPathIsNoListing(assets, path, i);
    var r := MatchAsset(canon, assets, path);
    var j :| 0 <= j < |assets| && StartsWith(path, AssetPrefix(assets[j].name))
             && r.value == AssetOutcome(canon, assets[j], path);
    PrefixesExclusive(assets, path, i, j);
  }

  /** A request that matches no rule is handed to the static handler, with
      `/` rewritten to `/index.html` and every other target left as received. */
  lemma FallbackRewrite(singles: seq<FileRoute>, assets: seq<AssetRoute>,
                        canon: Path -> Option<Path>, raw: string)
    requires FindSingle(singles, BeforeQuery(raw)).None?
    requires MatchListing(assets, BeforeQuery(raw)).None?
    requires forall i :: 0 <= i < |assets| ==> !StartsWith(BeforeQuery(raw), AssetPrefix(assets[i].name))
    ensures Classify(singles, assets, canon, raw)
            == Static(if BeforeQuery(raw) == "/" then "/index.html" else raw)
  {
  }

  /** 404 arises only from an asset prefix whose candidate was refused:
      a missed singleton or listing never answers 404 by itself. */
  lemma NotFoundOnlyUnderAssetPrefix(singles: seq<FileRoute>, assets: seq<AssetRoute>,
                                     canon: Path -> Option<Path>, raw: string)
    ensures Classify(singles, assets, canon, raw).NotFound? ==>
              exists i :: 0 <= i < |assets| && StartsWith(BeforeQuery(raw), AssetPrefix(assets[i].name))
  {
  }

  /** The query string plays no part in the choice of rule; only the
      static fallback still carries it, inside the path it hands on. */
  lemma QueryIgnored(singles: seq<FileRoute>, assets: seq<AssetRoute>,
                     canon: Path -> Option<Path>, raw: string)
    ensures var a := Classify(singles, assets, canon, raw);
            var b := Classify(singles, assets, canon, BeforeQuery(raw));
            && a.Static? == b.Static?
            && (!a.Static? ==> a == b)
            && (a.Static? && BeforeQuery(raw) != "/" ==> a.path == raw)
  {
    BeforeQueryIdempotent(raw);
  }

  // ---------------------------------------------------------------------
  // The server's own tables.
  //
  // The examples below take the request target as a parameter fixed by a
  // `requires` (`raw == "/list_hlod"`) rather than writing the literal in
  // the `ensures`: on a literal argument the verifier unfolds `Split`,
  // `BeforeQuery` and the table lookups eagerly, and the proofs become far
  // more expensive.

  lemma ManifestIsSingleton(base: Path, canon: Path -> Option<Path>, raw: string, query: string)
    requires raw == "/manifest?" + query
    ensures HandlerClassify(base, canon, raw)
            == SingleFile(base + ["manifests", "android_manifest.json"], "application/json")
  {
    assert raw == "/manifest" + "?" + query;
    BeforeQueryOfQuery("/manifest", query);
    SingletonPrecedence(SingleFileRoutes(base), AssetRoutes(base), canon, raw);
  }

  lemma ListHlodIsListing(base: Path, canon: Path -> Option<Path>, raw: string)
    requires raw == "/list_hlod"
    ensures HandlerClassify(base, canon, raw) == JsonListing(GameDir(base) + ["hlod"], ".obj")
  {
    BeforeQueryNoQuery(raw);
    AssetTableWellFormed(base);
    assert raw == ListPrefix + AssetRoutes(base)[0].name;
    SingletonsAreNoListings(base);
    ListingMatch(SingleFileRoutes(base), AssetRoutes(base), canon, raw, 0);
  }

  /** No singleton path starts with `/list_`. */
  lemma SingletonsAreNoListings(base: Path)
    ensures forall j :: 0 <= j < |SingleFileRoutes(base)| ==> !StartsWith(SingleFileRoutes(base)[j].url, ListPrefix)
  {
    var s := SingleFileRoutes(base);
    assert s[0].url[1] != ListPrefix[1];
    assert s[1].url[1] != ListPrefix[1];
    assert s[2].url[1] != ListPrefix[1];
    assert s[3].url[1] != ListPrefix[1];
    assert s[4].url[1] != ListPrefix[1];
    assert s[5].url[1] != ListPrefix[1];
  }

  /** `/list_meshes` names no route and reaches the static handler unchanged. */
  lemma UnknownListingIsStatic(base: Path, canon: Path -> Option<Path>, raw: string)
    requires raw == "/list_meshes"
    ensures HandlerClassify(base, canon, raw) == Static("/list_meshes")
  {
    BeforeQueryNoQuery(raw);
    UnknownListingMisses(base, raw);
    FallbackRewrite(SingleFileRoutes(base), AssetRoutes(base), canon, raw);
  }

  lemma UnknownListingMisses(base: Path, raw: string)
    requires raw == "/list_meshes"
    ensures FindSingle(SingleFileRoutes(base), raw).None?
    ensures MatchListing(AssetRoutes(base), raw).None?
    ensures forall i :: 0 <= i < |AssetRoutes(base)| ==> !StartsWith(raw, AssetPrefix(AssetRoutes(base)[i].name))
  {
    var assets := AssetRoutes(base);
    assert raw[|ListPrefix|..] == "meshes";
    forall i | 0 <= i < |assets| ensures !StartsWith(raw, AssetPrefix(assets[i].name)) {
      if StartsWith(raw, AssetPrefix(assets[i].name)) {
        PrefixShape(assets[i].name, raw);
      }
    }
  }

  /** No singleton path has a `/` after its first character, so no path
      with an asset prefix is a singleton. */
  lemma AssetPathIsNoSingleton(singles: seq<FileRoute>, name: string, path: string)
    requires forall j :: 0 <= j < |singles| ==> IsFlatUrl(singles[j].url)
    requires StartsWith(path, AssetPrefix(name))
    ensures FindSingle(singles, path).None?
  {
    PrefixShape(name, path);
    forall j | 0 <= j < |singles| ensures singles[j].url != path {
    }
  }

  /** Under flat singleton paths and well-formed asset routes, a candidate
      that climbs out of its route's directory with `..` and does not come
      back into the segment it left is answered 404. */
  lemma ClimbOutIsNotFound(singles: seq<FileRoute>, assets: seq<AssetRoute>, raw: string,
                           i: nat, filename: string, k: nat, rest: seq<string>)
    requires forall j :: 0 <= j < |singles| ==> IsFlatUrl(singles[j].url)
    requires WellFormed(assets) && i < |assets| && IsNormal(assets[i].dir)
    requires '?' !in raw
    requires raw == AssetPrefix(assets[i].name) + filename
    requires !IsAbsolute(filename)
    requires Parts(filename) == Climb(k) + rest && IsNormal(rest)
    requires 1 <= k <= |assets[i].dir|
    requires |rest| == 0 || rest[0] != assets[i].dir[|assets[i].dir| - k]
    ensures Classify(singles, assets, LexCanon, raw) == NotFound
  {
    ClimbOutRejected(assets[i].dir, filename, k, rest);
    AssetRequest(singles, assets, LexCanon, raw, i, filename);
  }

  /** A target `/<name>/<filename>` without a query is answered 404 exactly
      when `safe_resolve` refuses `filename` for that route's directory. */
  lemma AssetRequest(singles: seq<FileRoute>, assets: seq<AssetRoute>, canon: Path -> Option<Path>,
                     raw: string, i: nat, filename: string)
    requires forall j :: 0 <= j < |singles| ==> IsFlatUrl(singles[j].url)
    requires WellFormed(assets) && i < |assets|
    requires '?' !in raw
    requires raw == AssetPrefix(assets[i].name) + filename
    ensures Classify(singles, assets, canon, raw).NotFound?
            <==> SafeResolve(canon, assets[i].dir, filename).None?
  {
    BeforeQueryNoQuery(raw);
    AssetPathIsNoSingleton(singles, assets[i].name, raw);
    AssetPrefixTerminal(singles, assets, canon, raw, i);
    assert raw[|AssetPrefix(assets[i].name)|..] == filename;
  }

  /** Through the `hlod` route, a candidate that climbs two levels and does
      not come back into `game_data` is answered 404. */
  lemma HlodClimbRejected(base: Path, raw: string, filename: string, rest: seq<string>)
    requires IsNormal(base)
    requires raw == "/hlod/" + filename
    requires '?' !in filename && !IsAbsolute(filename)
    requires Parts(filename) == Climb(2) + rest && IsNormal(rest)
    requires |rest| == 0 || rest[0] != "game_data"
    ensures HandlerClassify(base, LexCanon, raw) == NotFound
  {
    HlodRoute(base, raw, filename);
    SingletonUrlsFlat(base);
    AssetTableWellFormed(base);
    assert '?' !in raw by { assert forall c :: c in raw ==> c in "/hlod/" || c in filename; }
    ClimbOutIsNotFound(SingleFileRoutes(base), AssetRoutes(base), raw, 0, filename, 2, rest);
  }

  /** `/hlod/../../secret.obj` is answered 404, never with `secret.obj`. */
  lemma SecretClimbRejected(base: Path, raw: string, filename: string)
    requires IsNormal(base)
    requires raw == "/hlod/" + filename && filename == "../../secret.obj"
    ensures HandlerClassify(base, LexCanon, raw) == NotFound
  {
    assert filename == ".." + "/" + (".." + "/" + "secret.obj");
    TwoLevelsUp(filename, "..", "secret.obj");
    HlodClimbRejected(base, raw, filename, ["secret.obj"]);
  }

  /** The `hlod` route's directory, two levels of which the example climbs. */
  lemma HlodRoute(base: Path, raw: string, filename: string)
    requires IsNormal(base)
    requires raw == "/hlod/" + filename
    ensures raw == AssetPrefix(AssetRoutes(base)[0].name) + filename
    ensures IsNormal(AssetRoutes(base)[0].dir)
    ensures |AssetRoutes(base)[0].dir| >= 2
    ensures AssetRoutes(base)[0].dir[|AssetRoutes(base)[0].dir| - 2] == "game_data"
  {
  }

  lemma TwoLevelsUp(filename: string, up: string, name: string)
    requires up == ".." && name == "secret.obj"
    requires filename == up + "/" + (up + "/" + name)
    ensures Parts(filename) == Climb(2) + [name]
  {
    SplitNoSlash(name);
    SplitFirst(up, name);
    SplitFirst(up, up + "/" + name);
    assert Split(filename) == [up, up, name];
    DropTrivialOfClean([up, up, name]);
    assert Climb(2) == [up, up];
  }
}

=== FILE: emitter.dfy ===
/**
 The response emitter (`_serve_json`, `_serve_file`, `end_headers`,
 `send_error(404)`), the request handler end to end, and the 404 filter of
 `log_message`. The filesystem is a map from the paths the handler opens
 (canonical for assets, as written in the tables for singletons and
 listings) to files and directories; a directory holds what `os.listdir`
 reports for it.
 */
module Emitter {
  import opened Wrappers
  import opened Strings
  import opened Paths
  import opened Resolver
  import opened Listing
  import opened Routes
  import opened Dispatch

  newtype byte = b: int | 0 <= b < 256

  /** What the handler finds at a path. `Unreadable` is an entry that
      exists but cannot be examined or read (no permission): `exists()`,
      `read_bytes()` and `os.listdir` all raise on it. */
  datatype Node = File(data: seq<byte>) | Dir(entries: seq<string>) | Unreadable

  type FileSystem = map<Path, Node>

  datatype Header = Header(name: string, value: string)

  datatype Reply =
    | Sent(status: nat, headers: seq<Header>, body: seq<byte>)
      // handed to the library's static-file handler as `self.path`
    | Delegated(path: string)
      // an exception left `do_GET`; the connection closes without a reply
    | Aborted

  const Cors: Header := Header("Access-Control-Allow-Origin", "*")
  const CacheHour: Header := Header("Cache-Control", "public, max-age=3600")

  /** `end_headers`: the cross-origin header closes every header block. */
  function EndHeaders(headers: seq<Header>): seq<Header> {
    headers + [Cors]
  }

  /** The value of the first header called `name`. */
  function HeaderValue(headers: seq<Header>, name: string): (r: Option<string>)
    ensures r.Some? ==> Header(name, r.value) in headers
    ensures r.None? <==> forall i :: 0 <= i < |headers| ==> headers[i].name != name
  {
    if |headers| == 0 then None
    else if headers[0].name == name then Some(headers[0].value)
    else HeaderValue(headers[1..], name)
  }

  /** The byte count a client reads from `Content-Length`. */
  function ContentLength(headers: seq<Header>): Option<nat> {
    match HeaderValue(headers, "Content-Length")
    case Some(v) => if IsDigits(v) then Some(DecimalValue(v)) else None
    case None => None
  }

  /** The reply carries `Access-Control-Allow-Origin: *` as its last header. */
  predicate HasCors(r: Reply) {
    r.Sent? ==> |r.headers| > 0 && r.headers[|r.headers| - 1] == Cors
  }

  /** `send_error(404)`, as far as this handler shapes it. */
  function NotFoundReply(): Reply {
    Sent(404, EndHeaders([]), [])
  }

  /** `_serve_json(data)`; `encode` stands for `json.dumps(data).encode()`. */
  function ServeJson(encode: seq<string> -> seq<byte>, data: seq<string>): (r: Reply)
    ensures r.Sent? && r.status == 200 && r.body == encode(data)
    ensures HeaderValue(r.headers, "Content-Type") == Some("application/json")
    ensures ContentLength(r.headers) == Some(|encode(data)|)
    ensures HeaderValue(r.headers, "Cache-Control").None?
    ensures HasCors(r)
  {
    var body := encode(data);
    var headers := EndHeaders([Header("Content-Type", "application/json"),
                               Header("Content-Length", DecimalOf(|body|))]);
    assert HeaderValue(headers[1..], "Content-Length") == Some(DecimalOf(|body|));
    DecimalRoundTrip(|body|);
    Sent(200, headers, body)
  }

  /** `_serve_file(path, ctype)`: 404 for a missing path, the file's bytes
      with its declared type, length and a one-hour cache hint otherwise;
      reading a directory or an unreadable entry raises and ends the
      request. */
  function ServeFile(fs: FileSystem, path: Path, ctype: string): (r: Reply)
    ensures path !in fs ==> r == NotFoundReply()
    ensures path in fs && (fs[path].Dir? || fs[path].Unreadable?) ==> r.Aborted?
    ensures path in fs && fs[path].File? ==>
              && r.Sent? && r.status == 200 && r.body == fs[path].data
              && HeaderValue(r.headers, "Content-Type") == Some(ctype)
              && ContentLength(r.headers) == Some(|fs[path].data|)
              && HeaderValue(r.headers, "Cache-Control") == Some("public, max-age=3600")
    ensures HasCors(r)
  {
    if path !in fs then NotFoundReply()
    else match fs[path]
      case Dir(_) => Aborted
      case Unreadable => Aborted
      case File(data) =>
        var headers := EndHeaders([Header("Content-Type", ctype),
                                   Header("Content-Length", DecimalOf(|data|)),
                                   CacheHour]);
        assert HeaderValue(headers[1..], "Content-Length") == Some(DecimalOf(|data|));
        assert HeaderValue(headers[2..], "Cache-Control") == Some(CacheHour.value);
        assert HeaderValue(headers[1..], "Cache-Control") == Some(CacheHour.value);
        DecimalRoundTrip(|data|);
        Sent(200, headers, data)
  }

  /** Writes the reply for a classified request. A listing reads the
      directory as `list_files` does: missing gives `[]`, and a plain file
      or an unreadable entry in its place makes `os.listdir` raise. */
  function Respond(fs: FileSystem, encode: seq<string> -> seq<byte>, route: Route): (r: Reply)
    ensures HasCors(r)
    ensures r.Sent? ==> r.status == 200 || r.status == 404
    ensures r.Sent? && r.status == 200 ==> ContentLength(r.headers) == Some(|r.body|)
    ensures r.Sent? && r.status == 404 ==> r == NotFoundReply()
    ensures r.Delegated? <==> route.Static?
    ensures route.Static? ==> r.path == route.path
    ensures route.NotFound? ==> r == NotFoundReply()
  {
    match route
    case SingleFile(file, ctype) => ServeFile(fs, file, ctype)
    case AssetFile(file, ctype) => ServeFile(fs, file, ctype)
    case JsonListing(dir, ext) =>
      if dir !in fs then ServeJson(encode, ListFiles(None, ext))
      else (
        match fs[dir]
        case Dir(entries) => ServeJson(encode, ListFiles(Some(entries), ext))
        case File(_) => Aborted
        case Unreadable => Aborted)
    case NotFound => NotFoundReply()
    case Static(path) => Delegated(path)
  }

  /** `Handler.do_GET` for the request target `raw`. */
  function Handle(base: Path, canon: Path -> Option<Path>, fs: FileSystem,
                  encode: seq<string> -> seq<byte>, raw: string): Reply
  {
    Respond(fs, encode, HandlerClassify(base, canon, raw))
  }

  // ---------------------------------------------------------------------
  // End to end.

  /** A singleton path is answered from its table file: 404 when nothing is
      there, its bytes with the table's content type, its length and the
      cache hint when it is a file, and no reply when it is a directory or
      cannot be read. */
  lemma SingletonReply(base: Path, canon: Path -> Option<Path>, fs: FileSystem,
                       encode: seq<string> -> seq<byte>, raw: string)
    requires FindSingle(SingleFileRoutes(base), BeforeQuery(raw)).Some?
    ensures var r := Handle(base, canon, fs, encode, raw);
            var route := FindSingle(SingleFileRoutes(base), BeforeQuery(raw)).value;
            && r == ServeFile(fs, route.file, route.ctype)
            && (route.file !in fs ==> r == NotFoundReply())
            && (route.file in fs && !fs[route.file].File? ==> r.Aborted?)
            && (route.file in fs && fs[route.file].File? ==>
                  && r.Sent? && r.status == 200 && r.body == fs[route.file].data
                  && HeaderValue(r.headers, "Content-Type") == Some(route.ctype)
                  && ContentLength(r.headers) == Some(|fs[route.file].data|)
                  && HeaderValue(r.headers, "Cache-Control") == Some("public, max-age=3600"))
  {
    SingletonPrecedence(SingleFileRoutes(base), AssetRoutes(base), canon, raw);
  }

  /** Confinement end to end: a request under an asset prefix is answered
      404, aborted, or with 200 and exactly the bytes of a file that lies
      under the route's canonical directory, typed as the route says. */
  lemma AssetReplyConfined(base: Path, canon: Path -> Option<Path>, fs: FileSystem,
                           encode: seq<string> -> seq<byte>, raw: string, i: nat)
    requires i < |AssetRoutes(base)|
    requires StartsWith(BeforeQuery(raw), AssetPrefix(AssetRoutes(base)[i].name))
    ensures var r := Handle(base, canon, fs, encode, raw);
            var route := AssetRoutes(base)[i];
            var c := HandlerClassify(base, canon, raw);
            || r == NotFoundReply()
            || r.Aborted?
            || (&& r.Sent? && r.status == 200
                && c.AssetFile? && canon(route.dir).Some? && canon(route.dir).value <= c.file
                && c.file in fs && fs[c.file] == File(r.body)
                && HeaderValue(r.headers, "Content-Type") == Some(route.ctype))
  {
    var assets := AssetRoutes(base);
    AssetTableWellFormed(base);
    SingletonUrlsFlat(base);
    AssetPathIsNoSingleton(SingleFileRoutes(base), assets[i].name, BeforeQuery(raw));
    AssetPrefixTerminal(SingleFileRoutes(base), assets, canon, raw, i);
  }

  /** The asset reply in full: for the candidate `f` after the prefix, 404
      when `safe_resolve` refuses it or nothing exists there, 200 with the
      file's bytes, the route's type, its length and the cache hint when a
      file does, and no reply when the resolved path is a directory or
      cannot be read. */
  lemma AssetReply(base: Path, canon: Path -> Option<Path>, fs: FileSystem,
                   encode: seq<string> -> seq<byte>, raw: string, i: nat)
    requires i < |AssetRoutes(base)|
    requires StartsWith(BeforeQuery(raw), AssetPrefix(AssetRoutes(base)[i].name))
    ensures var r := Handle(base, canon, fs, encode, raw);
            var route := AssetRoutes(base)[i];
            var f := BeforeQuery(raw)[|AssetPrefix(route.name)|..];
            match SafeResolve(canon, route.dir, f)
            case None => r == NotFoundReply()
            case Some(p) =>
              && r == ServeFile(fs, p, route.ctype)
              && (p !in fs ==> r == NotFoundReply())
              && (p in fs && (fs[p].Dir? || fs[p].Unreadable?) ==> r.Aborted?)
              && (p in fs && fs[p].File? ==>
                    && r.Sent? && r.status == 200 && r.body == fs[p].data
                    && HeaderValue(r.headers, "Content-Type") == Some(route.ctype)
                    && ContentLength(r.headers) == Some(|fs[p].data|)
                    && HeaderValue(r.headers, "Cache-Control") == Some("public, max-age=3600"))
  {
    var assets := AssetRoutes(base);
    AssetTableWellFormed(base);
    SingletonUrlsFlat(base);
    AssetPathIsNoSingleton(SingleFileRoutes(base), assets[i].name, BeforeQuery(raw));
    AssetPrefixTerminal(SingleFileRoutes(base), assets, canon, raw, i);
  }

  /** A candidate that the canonicaliser places under the route's directory
      and that names a file is served: 200 with exactly that file's bytes. */
  lemma AssetServed(base: Path, canon: Path -> Option<Path>, fs: FileSystem,
                    encode: seq<string> -> seq<byte>, raw: string, i: nat, file: Path)
    requires i < |AssetRoutes(base)|
    requires StartsWith(BeforeQuery(raw), AssetPrefix(AssetRoutes(base)[i].name))
    requires canon(AssetRoutes(base)[i].dir).Some?
    requires canon(Join(AssetRoutes(base)[i].dir,
                        BeforeQuery(raw)[|AssetPrefix(AssetRoutes(base)[i].name)|..])) == Some(file)
    requires canon(AssetRoutes(base)[i].dir).value <= file
    requires file in fs && fs[file].File?
    ensures var r := Handle(base, canon, fs, encode, raw);
            && r.Sent? && r.status == 200 && r.body == fs[file].data
            && HeaderValue(r.headers, "Content-Type") == Some(AssetRoutes(base)[i].ctype)
  {
    AssetReply(base, canon, fs, encode, raw, i);
  }

  /** `/list_<name>` for one of the server's routes answers with the JSON
      listing of that route's directory and extension; `[]` when the
      directory is missing. */
  lemma ListingReply(base: Path, canon: Path -> Option<Path>, fs: FileSystem,
                     encode: seq<string> -> seq<byte>, raw: string, i: nat)
    requires i < |AssetRoutes(base)|
    requires BeforeQuery(raw) == ListPrefix + AssetRoutes(base)[i].name
    ensures var r := Handle(base, canon, fs, encode, raw);
            var route := AssetRoutes(base)[i];
            && (route.dir !in fs ==> r == ServeJson(encode, []))
            && (route.dir in fs && fs[route.dir].Dir? ==>
                  r == ServeJson(encode, ListFiles(Some(fs[route.dir].entries), route.ext)))
            && (route.dir in fs && !fs[route.dir].Dir? ==> r.Aborted?)
  {
    AssetTableWellFormed(base);
    SingletonsAreNoListings(base);
    assert FindSingle(SingleFileRoutes(base), BeforeQuery(raw)).None?;
    ListingMatch(SingleFileRoutes(base), AssetRoutes(base), canon, raw, i);
  }

  // ---------------------------------------------------------------------
  // `log_message`: a line any of whose arguments prints as `404` is dropped.

  /** Whether `log_message` writes the line with these (already `str`-ed) arguments. */
  function Logged(args: seq<string>): (r: bool)
    ensures r <==> forall i :: 0 <= i < |args| ==> args[i] != "404"
  {
    if |args| == 0 then true else args[0] != "404" && Logged(args[1..])
  }

  /** The arguments `log_request(code)` passes: request line, code, size `-`. */
  function RequestLogArgs(requestline: string, code: nat): seq<string> {
    [requestline, DecimalOf(code), "-"]
  }

  /** The arguments `send_error` passes to `log_error`: code and message. */
  function ErrorLogArgs(code: nat, message: string): seq<string> {
    [DecimalOf(code), message]
  }

  lemma DecimalOf404()
    ensures DecimalOf(404) == "404"
  {
    assert DecimalOf(4) == "4";
    assert DecimalOf(40) == "40";
  }

  /** A request is logged unless it was answered 404 (or its request line
      is literally `404`). */
  lemma RequestLogFilter(requestline: string, code: nat)
    requires requestline != "404"
    ensures Logged(RequestLogArgs(requestline, code)) <==> code != 404
  {
    DecimalOf404();
    if DecimalOf(code) == "404" {
      DecimalInjective(code, 404);
    }
  }

  /** The error line `send_error(404)` logs is always dropped. */
  lemma NotFoundErrorNotLogged(message: string)
    ensures !Logged(ErrorLogArgs(404, message))
  {
    DecimalOf404();
  }
}

=== FILE: listing.dfy ===
/**
 The directory lister `list_files(directory, ext)`: the names in the
 directory that end with `ext`, in ascending order. A directory is modelled
 by what `os.listdir` returns for it, `None` when it does not exist.
 */
module Listing {
  import opened Wrappers
  import opened Strings

  /** Ascending in Python's string order. */
  predicate Sorted(s: seq<string>) {
    forall i, j :: 0 <= i < j < |s| ==> LessEq(s[i], s[j])
  }

  /** The entries ending with `ext`, in directory order. */
  function Matching(entries: seq<string>, ext: string): (r: seq<string>)
    ensures forall x :: x in r <==> x in entries && EndsWith(x, ext)
  {
    if |entries| == 0 then []
    else if EndsWith(entries[0], ext) then [entries[0]] + Matching(entries[1..], ext)
    else Matching(entries[1..], ext)
  }

  /** Puts `x` into its place in the ascending `s`. */
  function Insert(x: string, s: seq<string>): (r: seq<string>)
    requires Sorted(s)
    ensures Sorted(r)
    ensures multiset(r) == multiset(s) + multiset{x}
    ensures |r| > 0 && (r[0] == x || (|s| > 0 && r[0] == s[0]))
  {
    if |s| == 0 then [x]
    else if LessEq(x, s[0]) then
      InsertFront(x, s);
      [x] + s
    else
      var tail := Insert(x, s[1..]);
      InsertBehind(x, s, tail);
      assert s == [s[0]] + s[1..];
      [s[0]] + tail
  }

  /** `s[0]` may precede the insertion of a larger `x` into the rest of `s`. */
  lemma InsertBehind(x: string, s: seq<string>, tail: seq<string>)
    requires Sorted(s) && |s| > 0 && !LessEq(x, s[0])
    requires Sorted(tail) && multiset(tail) == multiset(s[1..]) + multiset{x}
    ensures Sorted([s[0]] + tail)
  {
    LessEqTotal(x, s[0]);
    forall j | 0 <= j < |tail| ensures LessEq(s[0], tail[j]) {
      assert tail[j] in multiset(tail);
      if tail[j] != x {
        assert tail[j] in multiset(s[1..]);
        var k :| 0 <= k < |s[1..]| && s[1..][k] == tail[j];
        assert s[k + 1] == tail[j];
      }
    }
    var r := [s[0]] + tail;
    forall i, j | 0 <= i < j < |r| ensures LessEq(r[i], r[j]) {
      if i > 0 {
        assert r[i] == tail[i - 1] && r[j] == tail[j - 1];
      } else {
        assert r[j] == tail[j - 1];
      }
    }
  }

  lemma InsertFront(x: string, s: seq<string>)
    requires Sorted(s) && |s| > 0 && LessEq(x, s[0])
    ensures Sorted([x] + s)
  {
    var r := [x] + s;
    forall i, j | 0 <= i < j < |r| ensures LessEq(r[i], r[j]) {
      if i == 0 && j > 1 {
        LessEqTransitive(x, s[0], s[j - 1]);
      }
    }
  }

  /** `sorted(xs)`: insertion sort; ascending and a permutation of `xs`. */
  function Sort(xs: seq<string>): (r: seq<string>)
    ensures Sorted(r)
    ensures multiset(r) == multiset(xs)
  {
    if |xs| == 0 then []
    else
      assert xs == [xs[0]] + xs[1..];
      Insert(xs[0], Sort(xs[1..]))
  }

  /** `list_files`: `[]` for a missing directory; otherwise exactly the
      entries ending with `ext` (each as often as listed), ascending. */
  function ListFiles(dir: Option<seq<string>>, ext: string): (r: seq<string>)
    ensures dir.None? ==> r == []
    ensures Sorted(r)
    ensures dir.Some? ==> multiset(r) == multiset(Matching(dir.value, ext))
    ensures forall x :: x in r ==> dir.Some? && x in dir.value && EndsWith(x, ext)
    ensures dir.Some? ==> forall x :: x in dir.value && EndsWith(x, ext) ==> x in r
  {
    match dir
    case None => []
    case Some(entries) =>
      var r := Sort(Matching(entries, ext));
      assert forall x :: x in r <==> x in multiset(Matching(entries, ext));
      r
  }

  /** In a total order there is only one ascending arrangement of a
      multiset, so the listing is fully determined by the directory's
      contents, not by the order `os.listdir` happens to report them in. */
  lemma {:induction false} SortedUnique(a: seq<string>, b: seq<string>)
    requires Sorted(a) && Sorted(b)
    requires multiset(a) == multiset(b)
    ensures a == b
  {
    if |a| > 0 {
      assert |b| == |multiset(b)| == |a|;
      SortedSameHead(a, b);
      assert a == [a[0]] + a[1..];
      assert b == [b[0]] + b[1..];
      assert multiset(a[1..]) == multiset(a) - multiset{a[0]};
      assert multiset(b[1..]) == multiset(b) - multiset{b[0]};
      SortedUnique(a[1..], b[1..]);
    }
  }

  /** Both ascending arrangements of one multiset start with its least element. */
  lemma SortedSameHead(a: seq<string>, b: seq<string>)
    requires Sorted(a) && Sorted(b) && |a| > 0 && |b| > 0
    requires multiset(a) == multiset(b)
    ensures a[0] == b[0]
  {
    assert a[0] in multiset(b);
    assert b[0] in multiset(a);
    var i :| 0 <= i < |b| && b[i] == a[0];
    var j :| 0 <= j < |a| && a[j] == b[0];
    assert LessEq(b[0], a[0]) by { if i > 0 { } else { LessEqReflexive(b[0]); } }
    assert LessEq(a[0], b[0]) by { if j > 0 { } else { LessEqReflexive(a[0]); } }
    LessEqAntisymmetric(a[0], b[0]);
  }

  /** The listing does not depend on the order of the directory's entries. */
  lemma ListFilesOrderIndependent(e1: seq<string>, e2: seq<string>, ext: string)
    requires multiset(e1) == multiset(e2)
    ensures ListFiles(Some(e1), ext) == ListFiles(Some(e2), ext)
  {
    MatchingMultiset(e1, e2, ext);
    SortedUnique(ListFiles(Some(e1), ext), ListFiles(Some(e2), ext));
  }

  lemma {:induction false} MatchingCount(entries: seq<string>, ext: string, x: string)
    ensures multiset(Matching(entries, ext))[x]
            == if EndsWith(x, ext) then multiset(entries)[x] else 0
  {
    if |entries| > 0 {
      MatchingCount(entries[1..], ext, x);
      assert entries == [entries[0]] + entries[1..];
    }
  }

  lemma MatchingMultiset(e1: seq<string>, e2: seq<string>, ext: string)
    requires multiset(e1) == multiset(e2)
    ensures multiset(Matching(e1, ext)) == multiset(Matching(e2, ext))
  {
    forall x ensures multiset(Matching(e1, ext))[x] == multiset(Matching(e2, ext))[x] {
      MatchingCount(e1, ext, x);
      MatchingCount(e2, ext, x);
    }
  }

  /** `b.obj`, `a.obj`, `c.txt` filtered by `.obj` list as `a.obj`, `b.obj`.
      The entries come in as a parameter fixed by the `requires`: written
      as literals in the `ensures`, the sort is unfolded eagerly and the
      proof becomes far more expensive. */
  lemma ListingExample(entries: seq<string>, ext: string)
    requires entries == ["b.obj", "a.obj", "c.txt"] && ext == ".obj"
    ensures ListFiles(Some(entries), ext) == ["a.obj", "b.obj"]
  {
    assert EndsWith(entries[0], ext) && EndsWith(entries[1], ext) && !EndsWith(entries[2], ext);
    assert Matching(entries[2..], ext) == [];
    assert Matching(entries, ext) == [entries[0], entries[1]];
    assert LessEq(entries[1], entries[0]);
    assert Sorted([entries[1], entries[0]]);
    assert multiset([entries[1], entries[0]]) == multiset([entries[0], entries[1]]);
    SortedUnique(ListFiles(Some(entries), ext), [entries[1], entries[0]]);
  }

  /** No stale listing: a matching file added between two requests shows up
      in the second listing, which therefore differs from the first. */
  lemma ListingSeesNewFile(entries: seq<string>, x: string, ext: string)
    requires x !in entries && EndsWith(x, ext)
    ensures x in ListFiles(Some(entries + [x]), ext)
    ensures ListFiles(Some(entries + [x]), ext) != ListFiles(Some(entries), ext)
  {
    assert x in entries + [x];
  }
}

=== FILE: paths.dfy ===
/**
 POSIX paths as the server's `pathlib.Path` values see them. An absolute
 path is the sequence of its segments below `/`; "`q` lies under `p`"
 (`Path.is_relative_to`) is the segment-wise prefix `p <= q`, so that
 `/data/assets-evil` is not under `/data/assets` although the strings
 share a prefix.
 */
module Paths {
  import opened Wrappers

  /** An absolute path: the segments below `/`; `[]` is `/` itself. */
  type Path = seq<string>

  /** `s.split("/")`: the pieces between slashes, possibly empty. */
  function Split(s: string): (r: seq<string>)
    ensures |r| >= 1
    ensures forall i :: 0 <= i < |r| ==> '/' !in r[i]
  {
    if |s| == 0 then [""]
    else
      var rest := Split(s[1..]);
      if s[0] == '/' then [""] + rest else [[s[0]] + rest[0]] + rest[1..]
  }

  /** `"/".join(parts)` */
  function Unsplit(parts: seq<string>): string
    requires |parts| >= 1
  {
    if |parts| == 1 then parts[0] else parts[0] + "/" + Unsplit(parts[1..])
  }

  /** Splitting on `/` loses nothing: joining the pieces gives the string back. */
  lemma {:induction false} SplitRoundTrip(s: string)
    ensures Unsplit(Split(s)) == s
  {
    if |s| > 0 {
      SplitRoundTrip(s[1..]);
      var rest := Split(s[1..]);
      if s[0] != '/' {
        var r := Split(s);
        assert r[1..] == rest[1..];
        if |rest| > 1 {
          assert Unsplit(r) == [s[0]] + (rest[0] + "/" + Unsplit(rest[1..]));
        }
      }
      assert s == [s[0]] + s[1..];
    }
  }

  /** A slash-free string is one piece. */
  lemma {:induction false} SplitNoSlash(a: string)
    requires '/' !in a
    ensures Split(a) == [a]
  {
    if |a| > 0 {
      assert '/' !in a[1..] by { assert forall c :: c in a[1..] ==> c in a; }
      SplitNoSlash(a[1..]);
      assert a == [a[0]] + a[1..];
    }
  }

  /** The first slash ends the first piece. */
  lemma {:induction false} SplitFirst(a: string, b: string)
    requires '/' !in a
    ensures Split(a + "/" + b) == [a] + Split(b)
  {
    if |a| > 0 {
      assert '/' !in a[1..] by { assert forall c :: c in a[1..] ==> c in a; }
      SplitFirst(a[1..], b);
      assert (a + "/" + b)[1..] == a[1..] + "/" + b;
      assert a == [a[0]] + a[1..];
    } else {
      assert a + "/" + b == "/" + b;
      assert ("/" + b)[1..] == b;
    }
  }

  /** A piece of `x / "a//./b"` that pathlib drops: empty or `.`. */
  predicate IsTrivial(seg: string) {
    seg == "" || seg == "."
  }

  /** A segment that a canonical path never holds. */
  predicate IsSpecial(seg: string) {
    IsTrivial(seg) || seg == ".."
  }

  /** A canonical path: no empty, `.` or `..` segment. */
  predicate IsNormal(p: Path) {
    forall i :: 0 <= i < |p| ==> !IsSpecial(p[i])
  }

  function DropTrivial(segs: seq<string>): (r: seq<string>)
    ensures forall i :: 0 <= i < |r| ==> !IsTrivial(r[i])
    ensures forall x :: x in r <==> x in segs && !IsTrivial(x)
  {
    if |segs| == 0 then []
    else if IsTrivial(segs[0]) then DropTrivial(segs[1..])
    else [segs[0]] + DropTrivial(segs[1..])
  }

  /** The segments pathlib keeps from a filename string. */
  function Parts(s: string): seq<string> {
    DropTrivial(Split(s))
  }

  predicate IsAbsolute(s: string) {
    |s| > 0 && s[0] == '/'
  }

  /** `dir / filename`: an absolute filename replaces `dir` altogether. */
  function Join(dir: Path, filename: string): Path {
    if IsAbsolute(filename) then Parts(filename) else dir + Parts(filename)
  }

  // ---------------------------------------------------------------------
  // A lexical canonicaliser: `Path.resolve()` on a tree without symlinks.

  /** Walks `raw` from the already-canonical `acc`: `..` climbs (never above `/`). */
  function NormalizeFrom(acc: Path, raw: seq<string>): (r: Path)
    requires IsNormal(acc)
    ensures IsNormal(r)
    decreases |raw|
  {
    if |raw| == 0 then acc
    else if IsTrivial(raw[0]) then NormalizeFrom(acc, raw[1..])
    else if raw[0] == ".." then
      NormalizeFrom(if |acc| == 0 then [] else acc[..|acc| - 1], raw[1..])
    else NormalizeFrom(acc + [raw[0]], raw[1..])
  }

  function Normalize(raw: seq<string>): (r: Path)
    ensures IsNormal(r)
  {
    NormalizeFrom([], raw)
  }

  /** `Path.resolve` for a filesystem without symbolic links; it never fails. */
  function LexCanon(raw: seq<string>): Option<Path> {
    Some(Normalize(raw))
  }

  /** Normalising a segment list in two pieces is normalising it at once. */
  lemma {:induction false} NormalizeFromAppend(acc: Path, a: seq<string>, b: seq<string>)
    requires IsNormal(acc)
    ensures NormalizeFrom(acc, a + b) == NormalizeFrom(NormalizeFrom(acc, a), b)
    decreases |a|
  {
    if |a| > 0 {
      assert (a + b)[0] == a[0];
      assert (a + b)[1..] == a[1..] + b;
      var next := if IsTrivial(a[0]) then acc
                  else if a[0] == ".." then (if |acc| == 0 then [] else acc[..|acc| - 1])
                  else acc + [a[0]];
      NormalizeFromAppend(next, a[1..], b);
    } else {
      assert a + b == b;
    }
  }

  /** Without `..`, normalising only drops the empty and `.` pieces. */
  lemma {:induction false} NormalizeFromClean(acc: Path, xs: seq<string>)
    requires IsNormal(acc)
    requires ".." !in xs
    ensures NormalizeFrom(acc, xs) == acc + DropTrivial(xs)
    decreases |xs|
  {
    if |xs| > 0 {
      assert xs[0] != "..";
      assert ".." !in xs[1..] by { assert forall y :: y in xs[1..] ==> y in xs; }
      if IsTrivial(xs[0]) {
        NormalizeFromClean(acc, xs[1..]);
      } else {
        NormalizeFromClean(acc + [xs[0]], xs[1..]);
        calc {
          NormalizeFrom(acc, xs);
          NormalizeFrom(acc + [xs[0]], xs[1..]);
          acc + [xs[0]] + DropTrivial(xs[1..]);
          acc + ([xs[0]] + DropTrivial(xs[1..]));
          acc + DropTrivial(xs);
        }
      }
    }
  }

  /** A canonical path is a fixed point of the lexical canonicaliser. */
  lemma NormalizeOfNormal(p: Path)
    requires IsNormal(p)
    ensures Normalize(p) == p
  {
    assert ".." !in p by {
      forall i | 0 <= i < |p| ensures p[i] != ".." { }
    }
    NormalizeFromClean([], p);
    DropTrivialOfClean(p);
  }

  /** Segments none of which is empty or `.` pass through unchanged. */
  lemma {:induction false} DropTrivialOfClean(p: seq<string>)
    requires forall i :: 0 <= i < |p| ==> !IsTrivial(p[i])
    ensures DropTrivial(p) == p
  {
    if |p| > 0 {
      assert !IsTrivial(p[0]);
      DropTrivialOfClean(p[1..]);
    }
  }

  /** Canonicalising twice is canonicalising once. */
  lemma NormalizeIdempotent(raw: seq<string>)
    ensures Normalize(Normalize(raw)) == Normalize(raw)
  {
    NormalizeOfNormal(Normalize(raw));
  }

  /** `k` copies of the segment `..`. */
  function Climb(k: nat): (r: seq<string>)
    ensures |r| == k
    ensures forall i :: 0 <= i < k ==> r[i] == ".."
  {
    if k == 0 then [] else [".."] + Climb(k - 1)
  }

  /** `k` times `..` drops the last `k` segments, stopping at `/`. */
  lemma {:induction false} NormalizeFromClimb(acc: Path, k: nat)
    requires IsNormal(acc)
    ensures NormalizeFrom(acc, Climb(k)) == acc[..if k <= |acc| then |acc| - k else 0]
    decreases k
  {
    if k > 0 {
      var up := if |acc| == 0 then [] else acc[..|acc| - 1];
      assert Climb(k)[1..] == Climb(k - 1);
      NormalizeFromClimb(up, k - 1);
    }
  }
}

=== FILE: resolver.dfy ===
/**
 The path-confinement resolver `safe_resolve(directory, filename)`: join an
 attacker-supplied filename to a route's directory, canonicalise, and keep
 the result only when it lies under the canonical directory.

 The canonicaliser is a parameter `canon`: it stands for `Path.resolve()`,
 symbolic links included, and `None` stands for the `ValueError` or
 `OSError` it may raise, which `safe_resolve` catches. Confinement is
 proved for every `canon`; the lexical canonicaliser `Paths.LexCanon` then
 shows which `..` candidates are turned away.
 */
module Resolver {
  import opened Wrappers
  import opened Strings
  import opened Paths

  /** `safe_resolve`: the canonical join when it stays under the canonical
      directory, `None` for an escape or for any canonicalisation error. */
  function SafeResolve(canon: Path -> Option<Path>, dir: Path, filename: string): (r: Option<Path>)
    // confinement: whatever comes back lies under the canonical directory
    ensures r.Some? ==> canon(dir).Some? && canon(dir).value <= r.value
    // and it is the canonical form of the joined path, not some other path
    ensures r.Some? ==> canon(Join(dir, filename)) == r
    // a path the canonicaliser places under the directory is never refused
    ensures (canon(dir).Some? && canon(Join(dir, filename)).Some?
             && canon(dir).value <= canon(Join(dir, filename)).value) ==> r.Some?
  {
    match canon(Join(dir, filename))
    case None => None
    case Some(resolved) =>
      match canon(dir)
      case None => None
      case Some(root) => if root <= resolved then Some(resolved) else None
  }

  /** A relative filename without `..` is accepted as the directory
      followed by the filename's segments. */
  lemma CleanCandidateAccepted(dir: Path, filename: string)
    requires IsNormal(dir)
    requires !IsAbsolute(filename)
    requires ".." !in Parts(filename)
    ensures SafeResolve(LexCanon, dir, filename) == Some(dir + Parts(filename))
  {
    var p := dir + Parts(filename);
    assert IsNormal(p) by {
      forall i | 0 <= i < |p| ensures !IsSpecial(p[i]) {
        if i >= |dir| {
          assert p[i] == Parts(filename)[i - |dir|];
          assert p[i] in Parts(filename);
        }
      }
    }
    NormalizeOfNormal(p);
    NormalizeOfNormal(dir);
  }

  /** A relative filename that climbs `k` levels with `..` and then names
      the canonical `rest` is accepted exactly when the climb re-enters the
      directory, and the result is the climbed-to directory plus `rest`. */
  lemma ClimbingCandidate(dir: Path, filename: string, k: nat, rest: seq<string>)
    requires IsNormal(dir) && IsNormal(rest)
    requires !IsAbsolute(filename)
    requires Parts(filename) == Climb(k) + rest
    ensures var up := dir[..if k <= |dir| then |dir| - k else 0];
            SafeResolve(LexCanon, dir, filename)
            == if dir <= up + rest then Some(up + rest) else None
  {
    var up := dir[..if k <= |dir| then |dir| - k else 0];
    assert Join(dir, filename) == dir + Climb(k) + rest;
    assert dir + Climb(k) + rest == dir + (Climb(k) + rest);
    NormalizeFromAppend([], dir, Climb(k) + rest);
    NormalizeOfNormal(dir);
    NormalizeFromAppend(dir, Climb(k), rest);
    NormalizeFromClimb(dir, k);
    assert ".." !in rest by {
      forall i | 0 <= i < |rest| ensures rest[i] != ".." { }
    }
    NormalizeFromClean(up, rest);
    DropTrivialOfClean(rest);
    assert Normalize(Join(dir, filename)) == up + rest;
    NormalizeOfNormal(dir);
  }

  /** Climbing out of the directory without coming back into the segment
      just left (`../../secret.obj` against `.../hlod`) is always refused. */
  lemma ClimbOutRejected(dir: Path, filename: string, k: nat, rest: seq<string>)
    requires IsNormal(dir) && IsNormal(rest)
    requires !IsAbsolute(filename)
    requires Parts(filename) == Climb(k) + rest
    requires 1 <= k <= |dir|
    requires |rest| == 0 || rest[0] != dir[|dir| - k]
    ensures SafeResolve(LexCanon, dir, filename) == None
  {
    ClimbingCandidate(dir, filename, k, rest);
  }

  /** Segment-wise containment, not string prefix: `/data/assets-evil/x`
      starts with the string `/data/assets`, yet it is refused for the
      directory `/data/assets`, whatever the canonicaliser. */
  lemma SiblingRejected(canon: Path -> Option<Path>, filename: string)
    requires canon(["data", "assets"]) == Some(["data", "assets"])
    requires canon(Join(["data", "assets"], filename)) == Some(["data", "assets-evil", "x"])
    ensures StartsWith("/data/assets-evil/x", "/data/assets")
    ensures SafeResolve(canon, ["data", "assets"], filename) == None
  {
    assert "/data/assets-evil/x"[..12] == "/data/assets";
    assert ["data", "assets-evil", "x"][..2] != ["data", "assets"] by {
      assert ["data", "assets-evil", "x"][1] != ["data", "assets"][1];
    }
  }
}

=== FILE: routes.dfy ===
/**
 The route tables: the ordered asset routes (`ASSET_ROUTES`, iterated in
 declaration order) and the exact-path singleton routes
 (`SINGLE_FILE_ROUTES`). `base` is the directory holding the server
 script; it is a parameter because it depends on where the program lives.
 */
module Routes {
  import opened Wrappers
  import opened Strings
  import opened Paths

  /** One asset family: the files in `dir` ending with `ext`, served as `ctype`. */
  datatype AssetRoute = AssetRoute(name: string, dir: Path, ext: string, ctype: string)

  /** One fixed file, requested at exactly `url` and served as `ctype`. */
  datatype FileRoute = FileRoute(url: string, file: Path, ctype: string)

  function GameDir(base: Path): Path {
    base + ["game_data"]
  }

  /** `ASSET_ROUTES`, in declaration order. */
  function AssetRoutes(base: Path): seq<AssetRoute> {
    [ AssetRoute("hlod",     GameDir(base) + ["hlod"],     ".obj", "model/obj"),
      AssetRoute("terrain",  GameDir(base) + ["terrain"],  ".obj", "model/obj"),
      AssetRoute("hlod_all", GameDir(base) + ["hlod_all"], ".obj", "model/obj"),
      AssetRoute("textures", GameDir(base) + ["textures"], ".png", "image/png") ]
  }

  /** `SINGLE_FILE_ROUTES`: the exact request paths and their files. */
  function SingleFileRoutes(base: Path): seq<FileRoute> {
    [ FileRoute("/manifest",          base + ["manifests", "android_manifest.json"], "application/json"),
      FileRoute("/all_hlod_manifest", base + ["manifests", "all_hlod_manifest.json"], "application/json"),
      FileRoute("/ocean.obj",         base + ["ocean.obj"], "model/obj"),
      FileRoute("/ocean.glb",         base + ["ocean.glb"], "model/gltf-binary"),
      FileRoute("/skybox.png",        base + ["skybox.png"], "image/png"),
      FileRoute("/overrides.json",    base + ["overrides.json"], "application/json") ]
  }

  /** The first entry of `table` whose `key` is `k`: a dictionary lookup
      `k in d` followed by `d[k]`, over a table kept as a sequence. */
  function Find<T>(table: seq<T>, key: T -> string, k: string): (r: Option<T>)
    ensures r.Some? ==> r.value in table && key(r.value) == k
    ensures r.None? <==> forall i :: 0 <= i < |table| ==> key(table[i]) != k
  {
    if |table| == 0 then None
    else if key(table[0]) == k then Some(table[0])
    else Find(table[1..], key, k)
  }

  /** `SINGLE_FILE_ROUTES[url]` when `url in SINGLE_FILE_ROUTES`. */
  function FindSingle(routes: seq<FileRoute>, url: string): (r: Option<FileRoute>)
    ensures r.Some? ==> r.value in routes && r.value.url == url
    ensures r.None? <==> forall i :: 0 <= i < |routes| ==> routes[i].url != url
  {
    Find(routes, (route: FileRoute) => route.url, url)
  }

  /** A singleton path holds no `/` after its leading one. */
  predicate IsFlatUrl(url: string) {
    forall c :: 1 <= c < |url| ==> url[c] != '/'
  }

  lemma SingletonUrlsFlat(base: Path)
    ensures forall j :: 0 <= j < |SingleFileRoutes(base)| ==> IsFlatUrl(SingleFileRoutes(base)[j].url)
  {
    var s := SingleFileRoutes(base);
    assert IsFlatUrl(s[0].url);
    assert IsFlatUrl(s[1].url);
    assert IsFlatUrl(s[2].url);
    assert IsFlatUrl(s[3].url);
    assert IsFlatUrl(s[4].url);
    assert IsFlatUrl(s[5].url);
  }

  /** `f"/{name}/"`: the request-path prefix of a route's files. */
  function AssetPrefix(name: string): string {
    "/" + name + "/"
  }

  /** Route names are distinct dictionary keys and contain no `/`. */
  predicate WellFormed(routes: seq<AssetRoute>) {
    && (forall i :: 0 <= i < |routes| ==> '/' !in routes[i].name)
    && (forall i, j :: 0 <= i < j < |routes| ==> routes[i].name != routes[j].name)
  }

  /** `ASSET_ROUTES[name]` when `name in ASSET_ROUTES`. */
  function FindAsset(routes: seq<AssetRoute>, name: string): (r: Option<AssetRoute>)
    ensures r.Some? ==> r.value in routes && r.value.name == name
    ensures r.None? <==> forall i :: 0 <= i < |routes| ==> routes[i].name != name
  {
    Find(routes, (route: AssetRoute) => route.name, name)
  }

  /** With distinct names, the lookup finds the one route with that name. */
  lemma {:induction false} FindAssetAt(routes: seq<AssetRoute>, i: nat)
    requires WellFormed(routes) && i < |routes|
    ensures FindAsset(routes, routes[i].name) == Some(routes[i])
  {
    if i > 0 {
      assert routes[0].name != routes[i].name;
      assert WellFormed(routes[1..]) by {
        forall a, b | 0 <= a < b < |routes[1..]|
          ensures routes[1..][a].name != routes[1..][b].name
        {
          assert routes[1..][a] == routes[a + 1] && routes[1..][b] == routes[b + 1];
        }
      }
      FindAssetAt(routes[1..], i - 1);
    }
  }

  lemma AssetTableWellFormed(base: Path)
    ensures WellFormed(AssetRoutes(base))
  {
  }

  /** A matched prefix puts the name right after the first `/` and a `/`
      right after the name. */
  lemma PrefixShape(name: string, path: string)
    requires StartsWith(path, AssetPrefix(name))
    ensures |path| > |name| + 1
    ensures path[1..|name| + 1] == name && path[|name| + 1] == '/'
  {
    assert AssetPrefix(name)[1..|name| + 1] == name;
  }

  /** Two names without `/` whose prefixes both start `path` are equal. */
  lemma PrefixNamesEqual(a: string, b: string, path: string)
    requires '/' !in a && '/' !in b
    requires StartsWith(path, AssetPrefix(a)) && StartsWith(path, AssetPrefix(b))
    ensures a == b
  {
    PrefixShape(a, path);
    PrefixShape(b, path);
  }

  /** Because every prefix ends in `/`, at most one route's prefix starts a
      path: `/hlod/` and `/hlod_all/` never both match. */
  lemma PrefixesExclusive(routes: seq<AssetRoute>, path: string, i: nat, j: nat)
    requires WellFormed(routes)
    requires i < |routes| && j < |routes|
    requires StartsWith(path, AssetPrefix(routes[i].name))
    requires StartsWith(path, AssetPrefix(routes[j].name))
    ensures i == j
  {
    PrefixNamesEqual(routes[i].name, routes[j].name, path);
  }
}

=== FILE: strings.dfy ===
/**
 String helpers with Python's meaning: `startswith`, `endswith`,
 `split("?")[0]`, `str(n)` for a natural number, and the code-point
 ordering that `sorted` uses on `str`.
 */
module Strings {

  /** `s.startswith(prefix)` */
  predicate StartsWith(s: string, prefix: string) {
    prefix <= s
  }

  /** `s.endswith(suffix)`; every string ends with the empty suffix. */
  predicate EndsWith(s: string, suffix: string) {
    |suffix| <= |s| && s[|s| - |suffix|..] == suffix
  }

  /** `s.split("?")[0]`: the longest prefix of `s` that holds no `?`. */
  function BeforeQuery(s: string): (r: string)
    ensures r <= s
    ensures '?' !in r
    ensures |r| < |s| ==> s[|r|] == '?'
  {
    if |s| == 0 || s[0] == '?' then "" else [s[0]] + BeforeQuery(s[1..])
  }

  /** Whatever follows the first `?` never influences `BeforeQuery`. */
  lemma {:induction false} BeforeQueryOfQuery(p: string, q: string)
    requires '?' !in p
    ensures BeforeQuery(p + "?" + q) == p
  {
    if |p| > 0 {
      assert (p + "?" + q)[1..] == p[1..] + "?" + q;
      BeforeQueryOfQuery(p[1..], q);
    }
  }

  /** A target without `?` is its own path. */
  lemma BeforeQueryNoQuery(s: string)
    requires '?' !in s
    ensures BeforeQuery(s) == s
  {
  }

  /** Splitting off the query twice is the same as splitting it off once. */
  lemma {:induction false} BeforeQueryIdempotent(s: string)
    ensures BeforeQuery(BeforeQuery(s)) == BeforeQuery(s)
  {
    if |s| > 0 && s[0] != '?' {
      BeforeQueryIdempotent(s[1..]);
      assert BeforeQuery(s)[1..] == BeforeQuery(s[1..]);
    }
  }

  // ---------------------------------------------------------------------
  // Python's `str` ordering: lexicographic by code point, a proper prefix
  // sorting first.

  predicate LessEq(a: string, b: string) {
    if |a| == 0 then true
    else if |b| == 0 then false
    else if a[0] < b[0] then true
    else if a[0] > b[0] then false
    else LessEq(a[1..], b[1..])
  }

  lemma {:induction false} LessEqReflexive(a: string)
    ensures LessEq(a, a)
  {
    if |a| > 0 {
      LessEqReflexive(a[1..]);
    }
  }

  lemma {:induction false} LessEqTotal(a: string, b: string)
    ensures LessEq(a, b) || LessEq(b, a)
  {
    if |a| > 0 && |b| > 0 && a[0] == b[0] {
      LessEqTotal(a[1..], b[1..]);
    }
  }

  lemma {:induction false} LessEqAntisymmetric(a: string, b: string)
    requires LessEq(a, b) && LessEq(b, a)
    ensures a == b
  {
    if |a| > 0 && |b| > 0 {
      LessEqAntisymmetric(a[1..], b[1..]);
      assert a == [a[0]] + a[1..];
      assert b == [b[0]] + b[1..];
    }
  }

  lemma {:induction false} LessEqTransitive(a: string, b: string, c: string)
    requires LessEq(a, b) && LessEq(b, c)
    ensures LessEq(a, c)
  {
    if |a| > 0 && |b| > 0 && |c| > 0 && a[0] == b[0] && b[0] == c[0] {
      LessEqTransitive(a[1..], b[1..], c[1..]);
    }
  }

  // ---------------------------------------------------------------------
  // `str(n)` for the natural numbers the server prints in headers and logs.

  predicate IsDigits(s: string) {
    forall i :: 0 <= i < |s| ==> '0' <= s[i] <= '9'
  }

  function DigitChar(d: nat): (c: char)
    requires d < 10
    ensures '0' <= c <= '9'
    ensures c as int - '0' as int == d
  {
    ('0' as int + d) as char
  }

  /** `str(n)`: decimal digits, no sign, no leading zero. */
  function DecimalOf(n: nat): (r: string)
    ensures |r| >= 1 && IsDigits(r)
    ensures |r| > 1 ==> r[0] != '0'
  {
    if n < 10 then [DigitChar(n)] else DecimalOf(n / 10) + [DigitChar(n % 10)]
  }

  /** The number a string of decimal digits denotes (`int(s)`). */
  function DecimalValue(s: string): nat
    requires IsDigits(s)
  {
    if |s| == 0 then 0
    else DecimalValue(s[..|s| - 1]) * 10 + (s[|s| - 1] as int - '0' as int)
  }

  /** Reading back what `str(n)` wrote gives `n`. */
  lemma {:induction false} DecimalRoundTrip(n: nat)
    ensures DecimalValue(DecimalOf(n)) == n
  {
    if n >= 10 {
      DecimalRoundTrip(n / 10);
      var s := DecimalOf(n);
      assert s[..|s| - 1] == DecimalOf(n / 10);
    }
  }

  /** Distinct numbers print differently. */
  lemma DecimalInjective(m: nat, n: nat)
    requires DecimalOf(m) == DecimalOf(n)
    ensures m == n
  {
    DecimalRoundTrip(m);
    DecimalRoundTrip(n);
  }
}

=== FILE: wrappers.dfy ===
/** The optional value used wherever the server returns `None` or a value. */
module Wrappers {

  datatype Option<+T> = None | Some(value: T)
}
